=== FILE: README.md ===
# nubank.ts client core, modelled in Dafny

This project models the decision logic of the `NubankTS` client and of its
`Discovery` URL registry. Every network exchange is an input, so the model
holds no I/O. The model covers five pieces:

- **Discovery registry** (`discovery.dfy`, module `Discovery`). It holds two
  optional name-to-URL lists. `getUrl` looks a name up in a target list, or in
  the general list when no target is given. `getAppUrl` does the same lookup in
  the app list. `updateProxyUrls` replaces the two lists one after the other.
- **Token cache** (`session.dfy`, module `Session`). `getBearerToken` returns a
  cached token with no call at all. Otherwise it refreshes discovery (only when
  the app list is unloaded), exchanges the password grant at the `token` URL,
  and stores `"Bearer " + access_token`. As written the exchange is never
  reached (see below), so the module holds both that acquisition, with the
  exchange's result as an input, and the acquisition as written. The module
  also holds the lazy `loadMe`.
- **Request construction and the response extractor** (`http.dfy`,
  `graphql.dfy`, `extractor.dfy`, `paths.dfy`). `NubankPostRequest` always sends
  the session bearer and takes its second argument whole as the body.
  `graphQLRequest` walks the JSON envelope along `["data", ...path.split(".")]`,
  starting from the envelope's own `data` field. It then files the node under
  `error` or `data` according to `__typename`.
- **PIX key selection** (`pix.dfy`, module `Pix`). These are the guards of
  `generatePixQr`, in source order.
- **Step-up transfer** (`transfer.dfy`, module `Transfer`). `transferOutInit`
  and `transferOutPix` form a state machine:
  Init → Challenged → ProofPosted → Elevated → Completed, with Failed reachable
  from every state.

`wrappers.dfy`, `failures.dfy` and `json.dfy` hold the shared types: `Option`,
`Result`, the failures the client throws, and JSON values with JavaScript
truthiness, property reads and string rendering.

Network answers appear as parameters:
- `ListReply` is one discovery fetch.
- `Reply` is a `fetch` plus its `response.json()`.
- `Answers` holds the answers of the transfer flow.
- `exchange` is the `access_token` the token exchange yields.
- `stringify` stands for `JSON.stringify`.
- `bearer` is the value `getBearerToken()` resolves to once the token is cached;
  the flows require it to be the session's cached token.

Each operation records the calls it starts as a `seq<Call>`. This makes "no
request is made" and "exactly one POST" statable.

## Behaviour as written

The model follows the code as written, including these behaviours, which a
reader of the client's interface might not expect.

- **Double `data` read.** The extractor starts at `responseData.data` and then
  reads `data` again. A plain `{data: {viewer: …}}` envelope therefore fails
  (`Extractor.SingleDataEnvelopeFails`). Only an envelope with a second `data`
  level yields the leaf (`Extractor.ExtractFromDoubleData`).
- **`findIndex` check.** `!keys.findIndex(...)` rejects exactly an alias equal
  to the first key. An alias that no key carries is accepted and used as the
  PIX key.
- **Non-atomic refresh.** `updateProxyUrls` is not atomic. If the app fetch
  fails, the new general list stays beside the old app list.
- **Missing list.** Reading a name from a list that was never loaded is a
  TypeError (`UrlListMissing`). It is not a "no URL discovered" error.
- **No token is ever acquired.** Without a cached token, `getBearerToken`
  calls `NubankPostRequest` for the exchange (src/index.ts:95), and
  `NubankPostRequest` awaits `getBearerToken()` for its header before its
  `fetch` (src/index.ts:150). The token is still unset and the app list is now
  loaded, so the inner call does the same again, synchronously and without
  end, until the call stack overflows. The exchange is never sent, and only
  the discovery refresh happens (`Session.GetBearerTokenAsWritten`). The
  client therefore works only with a token that a caller has put into its
  public `token` field, and the flows below assume one.
- **No authentication failure.** `Session.GetBearerToken` takes the
  exchange's `access_token` as an input, describing the acquisition as if the
  exchange were sent (`Session.AsWrittenAcquisitionStopsBeforeExchange` relates
  the two). With that reading, an exchange that yields no `access_token` is not
  rejected: the cached token becomes `"Bearer undefined"`. The code would
  destructure `access_token` from the raw `Response` that `NubankPostRequest`
  returns, which has no such field.
- **Override in the body.** The `Authorization` value that `graphQLRequest`
  computes from an override token goes into the JSON body. The real header is
  always the session bearer. This holds for the proof POST too, which is
  therefore not unauthenticated.
- **Elevated token not stored.** The elevated token is never stored in the
  session.
- **Unchallenged init.** When `transferOutInit` resolves without throwing, it
  returns `undefined`. Reading `proof.verifyPinProof` then throws a TypeError
  (`NoChallenge`). This happens before any proof request. It is not a success
  and not "Certificate pending validation".
- **No challenge is ever parsed.** Every rejection of `graphQLRequest` is a
  fetch, JSON or walk failure, and none of them carries a `response`. The catch
  block of `transferOutInit` reads `error.response.headers`, so it throws in
  turn. As written, the step-up branch is therefore unreachable: every transfer
  fails right after the init query (`Transfer.InitAsWritten`,
  `Transfer.AsWrittenFlowStopsAtInit`). The flow still takes the init outcome as
  an input, so the step-up branch is modelled for a transport whose errors do
  carry a response.

## Model

| member | source | states |
|---|---|---|
| Paths.Split | src/index.ts:132 | `path.split(".")` yields at least one piece, no piece contains the separator, and joining the pieces with the separator gives back the path, so empty segments are kept |
| Paths.SplitJoin | src/index.ts:132 | splitting is the inverse of joining separator-free pieces, so the segments of a path are uniquely determined |
| Extractor.WalkConcat | src/index.ts:133-136 | keys are consumed in their original order: walking `a + b` is walking `a` and then `b` from where it ended, and a failure anywhere fails the whole walk |
| Extractor.ExtractByPopping | src/index.ts:131-136 | the reverse-then-pop loop computes the in-order walk of `["data", ...path.split(".")]` from the envelope's `data`, and yields nothing (no partial node) when a key is missing or a node is not an object |
| Extractor.ExtractReadsDataTwice | src/index.ts:131-136 | extraction equals walking the whole envelope along `data`, `data` and then the path segments |
| Extractor.ExtractFromDoubleData | src/index.ts:131-136 | for any path, an envelope that nests the path under two `data` levels yields exactly the leaf |
| Extractor.SingleDataEnvelopeFails | src/index.ts:132-136 | for every path whose first segment is not `data`, the single-`data` envelope that nests the path's leaf makes the walk fail |
| Extractor.Classify | src/index.ts:138-141 | the node is passed on unchanged, filed as an error exactly when `__typename` is `"RequestError"` and as data otherwise; only `null` makes the `__typename` read throw |
| Extractor.BalancePathSegments | src/queries/accountBalance.ts:18 | the balance path splits into its four segments in order |
| Extractor.ContactsExtractedFromDoubleData | src/queries/getContacts.ts:20 | the contacts path extracts the contact list from a double-`data` envelope |
| Json.NatToDecimal | src/index.ts:115 | a number in a template literal renders as decimal digits with no leading zero that denote exactly that number, as JavaScript prints integers below 2^53 |
| Http.NubankPost | src/index.ts:144-156 | the request goes to the given URL, carries the base headers, `accept` and the session bearer as `Authorization`, and carries the second argument whole as its body |
| GraphQL.GraphQLRequest | src/index.ts:110-142 | posts to the query endpoint with the session bearer in the header and the computed authorization and serialised query inside the body; resolves exactly when the walk reaches a non-null node, with the reply's headers and that node filed by `__typename`; a network or JSON failure rejects |
| GraphQL.OverrideStaysInBody | src/index.ts:114-128 | an override token ends up as `Bearer <token>` inside the body, while the real `Authorization` header stays the session bearer |
| GraphQL.NoOverrideRepeatsBearer | src/index.ts:114-116 | without a truthy override the body repeats the session bearer |
| GraphQL.DataOrError | src/index.ts:278 | the `data`-else-`error` result returns an error node as is, and a data node exactly when it is truthy (otherwise `undefined`) |
| Discovery.GetUrl | src/utils/discovery.ts:19-28 | returns the entry of the target list, or of the general list when no target is given, exactly when it is a non-empty string; otherwise throws "There is no URL discovered for <name>", or a TypeError when the list was never loaded |
| Discovery.GetAppUrl | src/utils/discovery.ts:30-32 | looks the name up in the app list, and in the general list while the app list is unloaded |
| Discovery.GetAppUrlFallsBack | src/utils/discovery.ts:20 | with the app list unloaded, `getAppUrl` is `getUrl` without a target |
| Discovery.UpdateProxyUrls | src/utils/discovery.ts:34-39 | the general list takes the first fetch's result and then the app list the second's; the second fetch starts only after the first succeeded; a failed first fetch changes nothing |
| Discovery.RefreshCanMixLists | src/utils/discovery.ts:34-39 | a failed app fetch leaves the new general list beside the old app list, so the update is not atomic |
| Discovery.LookupAfterRefresh | src/utils/discovery.ts:30-39 | after a successful refresh, app lookups read exactly the fetched app list |
| Session.GetBearerToken | src/index.ts:91-108 | a cached token is returned with no call and no state change; otherwise discovery is refreshed exactly when the app list is unloaded, leaving the registry that refresh produced, the password grant is sent to the `token` URL of that registry as the last of exactly those calls, and `"Bearer " + access_token` is cached and returned; a failure leaves the token as it was; user, password and owner never change |
| Session.GetBearerTokenAsWritten | src/index.ts:91-107 | a cached token is returned with no call; otherwise the registry is refreshed exactly as in the modelled acquisition, the token stays unset, no exchange is sent, and once the `token` URL is found the call fails with a stack overflow, because `NubankPostRequest` (line 150) re-enters it |
| Session.AsWrittenAcquisitionStopsBeforeExchange | src/index.ts:93-107 | the modelled acquisition agrees with the one as written on the refresh, the registry and every failure before the exchange, and otherwise makes the same calls plus the one exchange |
| Session.TokenCachedAfterAcquisition | src/index.ts:92-107 | once a token was acquired, every later call returns it with no call, whatever the network would answer |
| Session.AcquisitionWithLoadedRegistry | src/index.ts:93-105 | with both lists loaded, acquisition makes the exchange its only call and caches `"Bearer " + access_token` |
| Session.EnsureProfile | src/index.ts:86-89 | a cached owner is kept with no call; otherwise the setup query runs once and `me` becomes its data, or stays unset when the query throws |
| Session.ProfileLoadedOnce | src/index.ts:86-89 | once the owner is loaded, a second load makes no call and changes nothing, whatever the query would answer |
| Pix.FindIndex | src/index.ts:191-193 | returns the first index whose key value is the alias, or -1 exactly when no key has it |
| Pix.SelectPixKey | src/index.ts:186-197 | fails "No savings account found" on an empty account id, then "No PIX keys found" on an empty key list; without an alias picks the first key; with an alias fails "PIX key not found" exactly when the alias is the first key's value, and otherwise uses the alias |
| Pix.UnregisteredAliasAccepted | src/index.ts:189-197 | an alias no key carries passes the check and becomes the PIX key |
| Pix.FirstKeyAliasRejected | src/index.ts:189-195 | naming the first registered key explicitly is rejected |
| Pix.GeneratePixQr | src/index.ts:178-208 | loads the owner exactly once when missing and not at all otherwise, changes nothing but `me`, fails when the owner is still missing, and on success passes the selected key and the account id to the query builder |
| Transfer.Advance | src/index.ts:247-279 | every transition strictly lowers the state's rank and stays within the call budget, so the flow has no loop; calls are only appended; the session token never changes |
| Transfer.TransferOutPix | src/index.ts:257-279 | every run ends in Completed or Failed with at most four calls, and the session token is the one it started with, so the elevated token is never stored |
| Transfer.PendingCertificateStopsBeforeProof | src/index.ts:259-262 | a challenge lacking the pin proof or the location fails with "Certificate pending validation" after only the owner load and the init query |
| Transfer.MissingChallengeStopsBeforeProof | src/index.ts:247-261 | when init yields no challenge, the flow fails after the owner load and the init query, before the proof POST and the retry |
| Transfer.InitAsWritten | src/index.ts:247-255 | the init settles as resolved exactly when its query resolves, and otherwise as a rejection without a response; it never yields a challenge |
| Transfer.AsWrittenFlowStopsAtInit | src/index.ts:247-262 | with the init outcome as written, every transfer fails after the owner load and the init query, with neither the proof POST nor the retry |
| Transfer.ActionableRunEndsWithRetry | src/index.ts:259-276 | with an actionable challenge and a JSON-object proof response, the run makes the init calls and one proof POST and then ends with the single retry, carrying the response's `access_token` |
| Transfer.CompletedRunShape | src/index.ts:257-279 | every completed run had an actionable challenge and made exactly one proof POST to its location and one transfer retry with the proof response's `access_token`, and returns the `data`-else-`error` result of that retry |
| Transfer.ElevatedRetryCarriesProofToken | src/index.ts:264-278 | with `{access_token: T}`, the proof POST goes to the location with `{acl: [], input, proof}` and the retry's body carries `Bearer T`, while its header keeps the session bearer |

## Left out

- HTTP transport is not modelled. `fetch`, `response.json()` and
  `JSON.stringify` appear as the `ListReply`/`Reply` inputs and the `stringify`
  parameter. Headers are not case-normalised.
- The certificate load through `Deno.readFile` (src/index.ts:81) is left out.
  It is file I/O.
- The constructors (src/index.ts:77-84, src/utils/discovery.ts:14-17) are left
  out, because they start `loadMe` and `updateProxyUrls` without awaiting them,
  concurrently with the caller. As written, the constructor's `loadMe` always
  rejects: its query asks `getBearerToken` for a token that is not set yet
  (src/index.ts:83, 116, 92-95), which ends in the re-entry overflow described
  above or in a failed discovery fetch. Nothing awaits or catches that promise,
  so the rejection is unhandled. A `Session` may start in any state.
- `parseWwwAuthHeader` (src/index.ts:23) is not part of this model. Its result
  is the `AuthProof` that `InitOutcome.InitRejected` carries.
- The query wrappers (src/index.ts:158-245) and the query builders are left
  out. Their descriptors are `Query` values. The `generatePixQr` builder's
  arguments are `PixQrArgs`.
- `loadMe`'s setup query is an input (`profile`). The code assigns the untyped
  `data` node to `me`, and no JSON-to-owner decoding is modelled.
- `GetBearerToken`: the exchange's result is an input, and the acquisition
  is modelled as if the exchange were sent. As written, the re-entry of
  `getBearerToken` through `NubankPostRequest` (src/index.ts:95, 150) never
  ends, and `Session.GetBearerTokenAsWritten` models that. The stack
  overflow is one `CallStackExhausted` failure, not a count of frames. For the
  same reason, `GraphQLRequest`, `NubankPost` and the transfer flow take the
  already cached bearer as `bearer`.
- `Session.EnsureProfile`, `Pix.GeneratePixQr`: require a cached token when the
  owner still has to be loaded. They do not compose the setup query's own
  token acquisition, which `Session.GetBearerTokenAsWritten` models separately.
- `Transfer.StepInit`: the init outcome is the input `Answers.init`, not the
  result of the init query. This keeps the step-up branch, which the code as
  written never reaches, open to proof. `Transfer.InitAsWritten` gives the
  outcome as written.
- JavaScript property reads on arrays and strings (indices, `length`) and
  inherited keys such as `__proto__` count as missing.
- JSON numbers are integers. The `amount`/`value` arguments pass through
  unchanged.
- `Json.NatToDecimal`: its rendering is faithful only for magnitudes below
  2^53. From 10^21 upward JavaScript prints numbers in exponent form
  (`${1e21}` is `"1e+21"`), and `JSON.parse` rounds integers above 2^53, while
  the model prints every integer as plain digits of its exact value.
- Concurrency is not modelled. The code has no guard against concurrent first
  token acquisitions, and the model is sequential.

=== FILE: discovery.dfy ===
/** The `Discovery` URL registry (src/utils/discovery.ts). */
module Discovery {
  import opened Wrappers
  import opened Failures
  import opened Http

  /** `IUrlList`: logical endpoint name to URL. */
  type UrlList = map<string, string>

  const DiscoveryUrl: string := "https://prod-s0-webapp-proxy.nubank.com.br/api/discovery"
  const DiscoveryAppUrl: string := "https://prod-s0-webapp-proxy.nubank.com.br/api/app/discovery"

  /** The two lists; `None` until the corresponding fetch has completed. */
  datatype Registry = Registry(proxyListUrl: Option<UrlList>, proxyListAppUrl: Option<UrlList>)

  /** The result of one discovery fetch and its `json()`. */
  datatype ListReply = Listed(urls: UrlList) | Unreachable | NotJson

  /** The registry after `updateProxyUrls`, the fetches it started, and whether it threw. */
  datatype Refresh = Refresh(registry: Registry, calls: seq<Call>, outcome: Result<(), Failure>)

  /** True when `name` maps to a non-empty URL in `urls` (a truthy `urlList[name]`). */
  predicate Discovered(urls: UrlList, name: string)
  {
    name in urls && urls[name] != ""
  }

  /**
   * `getUrl(name, target)`: looks `name` up in `target`, or in the general list
   * when no target is given; throws when the URL is missing or empty, and a
   * TypeError when the list itself was never loaded.
   */
  function GetUrl(d: Registry, name: string, target: Option<UrlList>): (r: Result<string, Failure>)
    ensures target.Some? ==> (r.Ok? <==> Discovered(target.value, name))
    ensures target.Some? && r.Ok? ==> r.value == target.value[name]
    ensures target.None? && d.proxyListUrl.None? ==> r == Err(UrlListMissing)
    ensures target.None? && d.proxyListUrl.Some? ==> (r.Ok? <==> Discovered(d.proxyListUrl.value, name))
    ensures target.None? && d.proxyListUrl.Some? && r.Ok? ==> r.value == d.proxyListUrl.value[name]
    ensures r.Err? && (target.Some? || d.proxyListUrl.Some?) ==> r.error == NoUrlDiscovered(name)
    ensures r.Err? && (target.Some? || d.proxyListUrl.Some?) ==> Message(r.error) == "There is no URL discovered for " + name
  {
    var urlList := if target.Some? then target else d.proxyListUrl;
    match urlList
    case None => Err(UrlListMissing)
    case Some(urls) => if name in urls && urls[name] != "" then Ok(urls[name]) else Err(NoUrlDiscovered(name))
  }

  /** `getAppUrl(name)`: a lookup in the app list, in the general list while the app list is unloaded. */
  function GetAppUrl(d: Registry, name: string): (r: Result<string, Failure>)
    ensures d.proxyListAppUrl.Some? ==> (r.Ok? <==> Discovered(d.proxyListAppUrl.value, name))
    ensures d.proxyListAppUrl.Some? && r.Ok? ==> r.value == d.proxyListAppUrl.value[name]
    ensures d.proxyListAppUrl.None? && d.proxyListUrl.Some? ==> (r.Ok? <==> Discovered(d.proxyListUrl.value, name))
    ensures d.proxyListAppUrl.None? && d.proxyListUrl.Some? && r.Ok? ==> r.value == d.proxyListUrl.value[name]
  {
    GetUrl(d, name, d.proxyListAppUrl)
  }

  /** While the app list is unloaded, `getAppUrl` is a lookup in the general list. */
  lemma GetAppUrlFallsBack(d: Registry, name: string)
    requires d.proxyListAppUrl.None?
    ensures GetAppUrl(d, name) == GetUrl(d, name, None)
  {
  }

  /** Reads the list a discovery fetch produced. */
  function ReadList(reply: ListReply, url: string): (r: Result<UrlList, Failure>)
    ensures r.Ok? <==> reply.Listed?
    ensures r.Ok? ==> r.value == reply.urls
  {
    match reply
    case Listed(urls) => Ok(urls)
    case Unreachable => Err(FetchFailed(url))
    case NotJson => Err(InvalidJson(url))
  }

  /**
   * `updateProxyUrls()`: replaces the general list with the first fetch's
   * result, then the app list with the second's. The second fetch is started
   * only after the first succeeded, and a failure of the second leaves the new
   * general list in place.
   */
  function UpdateProxyUrls(d: Registry, general: ListReply, app: ListReply): (r: Refresh)
    ensures !general.Listed? ==> r.registry == d && r.outcome.Err? && r.calls == [Get(DiscoveryUrl)]
    ensures general.Listed? ==> r.calls == [Get(DiscoveryUrl), Get(DiscoveryAppUrl)]
    ensures general.Listed? ==> r.registry.proxyListUrl == Some(general.urls)
    ensures general.Listed? && app.Listed? ==> r.registry.proxyListAppUrl == Some(app.urls) && r.outcome.Ok?
    ensures general.Listed? && !app.Listed? ==> r.registry.proxyListAppUrl == d.proxyListAppUrl && r.outcome.Err?
  {
    match ReadList(general, DiscoveryUrl)
    case Err(e) => Refresh(d, [Get(DiscoveryUrl)], Err(e))
    case Ok(urls) =>
      var d1 := d.(proxyListUrl := Some(urls));
      var calls := [Get(DiscoveryUrl), Get(DiscoveryAppUrl)];
      match ReadList(app, DiscoveryAppUrl)
      case Err(e) => Refresh(d1, calls, Err(e))
      case Ok(appUrls) => Refresh(d1.(proxyListAppUrl := Some(appUrls)), calls, Ok(()))
  }

  /**
   * The refresh is not atomic: when the app fetch fails, the registry holds the
   * new general list beside the old app list.
   */
  lemma RefreshCanMixLists(d: Registry, urls: UrlList, app: ListReply)
    requires !app.Listed?
    ensures UpdateProxyUrls(d, Listed(urls), app).registry == Registry(Some(urls), d.proxyListAppUrl)
    ensures UpdateProxyUrls(d, Listed(urls), app).outcome.Err?
  {
  }

  /** After a successful refresh, app lookups read exactly the freshly fetched app list. */
  lemma LookupAfterRefresh(d: Registry, urls: UrlList, appUrls: UrlList, name: string)
    ensures GetAppUrl(UpdateProxyUrls(d, Listed(urls), Listed(appUrls)).registry, name)
            == (if Discovered(appUrls, name) then Ok(appUrls[name]) else Err(NoUrlDiscovered(name)))
  {
  }
}

=== FILE: extractor.dfy ===
/**
 * The response extractor of `graphQLRequest` (src/index.ts:131-141): a walk
 * along `["data", ...path.split(".")]` that starts at the envelope's own
 * `data` field, followed by the `__typename` classification.
 */
module Extractor {
  import opened Wrappers
  import opened Json
  import opened Paths

  /** The discriminator value that marks an application-level error node. */
  const RequestErrorTypename: string := "RequestError"

  /** The extracted node, filed under exactly one key of the response. */
  datatype Payload = Data(node: JValue) | AppError(node: JValue)

  /** Reads `keys` one after the other, left to right; fails on a missing key or a non-object. */
  function Walk(node: JValue, keys: seq<string>): (r: Option<JValue>)
    decreases |keys|
  {
    if keys == [] then Some(node)
    else if node.JObj? && keys[0] in node.fields then Walk(node.fields[keys[0]], keys[1..])
    else None
  }

  /** Continues a walk that may already have failed. */
  function WalkFrom(start: Option<JValue>, keys: seq<string>): Option<JValue>
  {
    match start
    case None => None
    case Some(n) => Walk(n, keys)
  }

  /** Walking a concatenation is walking its halves in turn: the keys are consumed in order. */
  lemma {:induction false} WalkConcat(node: JValue, a: seq<string>, b: seq<string>)
    ensures Walk(node, a + b) == WalkFrom(Walk(node, a), b)
    decreases |a|
  {
    if a == [] {
      assert a + b == b;
    } else {
      assert (a + b)[0] == a[0];
      assert (a + b)[1..] == a[1..] + b;
      if node.JObj? && a[0] in node.fields {
        WalkConcat(node.fields[a[0]], a[1..], b);
      }
    }
  }

  /** The keys `graphQLRequest` consumes for `path`, starting from the envelope's `data`. */
  function PathKeys(path: string): (keys: seq<string>)
    ensures |keys| >= 2 && keys[0] == "data"
    ensures keys[1..] == Split(path, '.')
  {
    ["data"] + Split(path, '.')
  }

  /**
   * The node `graphQLRequest` leaves in `responseData.data`, or `None` when the
   * walk throws (a read of `undefined`).
   */
  function Extract(envelope: JValue, path: string): Option<JValue>
  {
    if envelope.JObj? && "data" in envelope.fields then Walk(envelope.fields["data"], PathKeys(path))
    else None
  }

  /** The walk reads `data` twice before the first path segment. */
  lemma ExtractReadsDataTwice(envelope: JValue, path: string)
    ensures Extract(envelope, path) == Walk(envelope, ["data", "data"] + Split(path, '.'))
  {
    var keys := ["data", "data"] + Split(path, '.');
    assert keys[0] == "data" && keys[1..] == PathKeys(path);
  }

  /**
   * The loop of src/index.ts:132-136 as written: reverse the keys, then pop
   * from the end until none are left. It computes the in-order walk.
   */
  method ExtractByPopping(envelope: JValue, path: string) returns (r: Option<JValue>)
    ensures r == Extract(envelope, path)
  {
    if !(envelope.JObj? && "data" in envelope.fields) {
      return None;
    }
    var keys := PathKeys(path);
    var pathArr := Reverse(keys);
    var node := envelope.fields["data"];
    ghost var k := 0;
    while |pathArr| > 0
      invariant 0 <= k <= |keys| && |pathArr| == |keys| - k
      invariant forall i :: 0 <= i < |pathArr| ==> pathArr[i] == keys[|keys| - 1 - i]
      invariant Walk(envelope.fields["data"], keys) == Walk(node, keys[k..])
    {
      var key := pathArr[|pathArr| - 1];
      pathArr := pathArr[..|pathArr| - 1];
      assert key == keys[k];
      assert keys[k..][1..] == keys[k + 1..];
      if node.JObj? && key in node.fields {
        node := node.fields[key];
        k := k + 1;
      } else {
        return None;
      }
    }
    return Some(node);
  }

  /** True of a node whose `__typename` is the error sentinel. */
  predicate IsRequestError(node: JValue)
  {
    node.JObj? && "__typename" in node.fields && node.fields["__typename"] == JStr(RequestErrorTypename)
  }

  /**
   * Files the extracted node under `error` or `data` (src/index.ts:138-141);
   * `None` when reading `__typename` throws, which happens only on `null`.
   */
  function Classify(node: JValue): (r: Option<Payload>)
    ensures r.None? <==> node.JNull?
    ensures r.Some? ==> r.value.node == node
    ensures r.Some? ==> (r.value.AppError? <==> IsRequestError(node))
  {
    match node
    case JNull => None
    case JObj(m) =>
      if "__typename" in m && m["__typename"] == JStr(RequestErrorTypename) then Some(AppError(node))
      else Some(Data(node))
    case _ => Some(Data(node))
  }

  /** The path of the account-balance query (src/queries/accountBalance.ts:18). */
  const BalancePath: string := "viewer." + "savingsAccount." + "currentSavingsBalance." + "netAmount"

  /** The path of the contacts query (src/queries/getContacts.ts:20). */
  const ContactsPath: string := "viewer.savingsAccount.contacts"

  lemma BalancePathSegments()
    ensures Split(BalancePath, '.') == ["viewer", "savingsAccount", "currentSavingsBalance", "netAmount"]
  {
    var parts := ["viewer", "savingsAccount", "currentSavingsBalance", "netAmount"];
    assert Join(parts[3..], '.') == "netAmount";
    assert Join(parts[2..], '.') == "currentSavingsBalance" + "." + "netAmount";
    assert Join(parts[1..], '.') == "savingsAccount" + "." + ("currentSavingsBalance" + "." + "netAmount");
    assert Join(parts, '.') == "viewer" + "." + ("savingsAccount" + "." + ("currentSavingsBalance" + "." + "netAmount"));
    assert BalancePath == "viewer" + "." + ("savingsAccount" + "." + ("currentSavingsBalance" + "." + "netAmount"));
    SplitJoin(parts, '.');
  }

  lemma ContactsPathSegments()
    ensures Split(ContactsPath, '.') == ["viewer", "savingsAccount", "contacts"]
  {
    var parts := ["viewer", "savingsAccount", "contacts"];
    assert Join(parts[2..], '.') == "contacts";
    assert Join(parts[1..], '.') == "savingsAccount.contacts";
    assert Join(parts, '.') == ContactsPath;
    SplitJoin(parts, '.');
  }

  /** The object that holds `leaf` under `keys`, one nested object per key. */
  function Nest(keys: seq<string>, leaf: JValue): JValue
    decreases |keys|
  {
    if keys == [] then leaf else JObj(map[keys[0] := Nest(keys[1..], leaf)])
  }

  /** Walking exactly the nested keys reaches the leaf. */
  lemma {:induction false} WalkNest(keys: seq<string>, leaf: JValue)
    ensures Walk(Nest(keys, leaf), keys) == Some(leaf)
    decreases |keys|
  {
    if keys != [] {
      WalkNest(keys[1..], leaf);
    }
  }

  /** Any path is extracted from an envelope that nests its segments under two `data` levels. */
  lemma ExtractFromDoubleData(path: string, leaf: JValue)
    ensures Extract(Nest(["data", "data"] + Split(path, '.'), leaf), path) == Some(leaf)
  {
    var keys := ["data", "data"] + Split(path, '.');
    ExtractReadsDataTwice(Nest(keys, leaf), path);
    WalkNest(keys, leaf);
  }

  /** The contacts path, as a concrete instance. */
  lemma ContactsExtractedFromDoubleData(contacts: JValue)
    ensures Extract(Nest(["data", "data", "viewer", "savingsAccount", "contacts"], contacts), ContactsPath)
            == Some(contacts)
  {
    ContactsPathSegments();
    ExtractFromDoubleData(ContactsPath, contacts);
  }

  /**
   * The plain envelope `{data: <path nested over leaf>}` fails for every path
   * that does not itself start with `data`: the walk looks for a second `data`
   * key where the first path segment is.
   */
  lemma SingleDataEnvelopeFails(path: string, leaf: JValue)
    requires Split(path, '.')[0] != "data"
    ensures Extract(Nest(["data"] + Split(path, '.'), leaf), path) == None
  {
    var segs := Split(path, '.');
    assert (["data"] + segs)[1..] == segs;
    assert "data" !in Nest(segs, leaf).fields;
  }
}

=== FILE: failures.dfy ===
/** Everything the client can throw, one constructor per distinct failure. */
module Failures {

  datatype Failure =
    /** `getUrl` found no URL, or an empty one, for `name` (src/utils/discovery.ts:23-25). */
    | NoUrlDiscovered(name: string)
      /** `getUrl` read a name from a URL list that was never loaded (a TypeError). */
    | UrlListMissing
      /** `fetch` rejected for `url` (network failure). */
    | FetchFailed(url: string)
      /** `response.json()` rejected: the body of the reply from `url` is not JSON. */
    | InvalidJson(url: string)
      /** The response walk or the `__typename` read touched `undefined` or `null` (a TypeError). */
    | MalformedResponse
      /** A property was read from a JSON `null` (a TypeError). */
    | NullProperty(key: string)
      /** `generatePixQr` guards (src/index.ts:186-195). */
    | NoSavingsAccount
    | NoPixKeys
    | PixKeyNotFound
      /** `this.me` is still undefined after `loadMe` (a TypeError on `this.me.savingsAccount`). */
    | ProfileMissing
      /** `transferOutInit` resolved without a challenge, so `proof.verifyPinProof` read `undefined` (a TypeError). */
    | NoChallenge
      /** `transferOutInit` caught an error that carries no `response` (a TypeError inside its catch block). */
    | InitFailedWithoutResponse
      /** The challenge lacks a pin proof or a location (src/index.ts:261-262). */
    | CertificatePendingValidation
      /** `getBearerToken` re-entered itself until the call stack overflowed (a RangeError). */
    | CallStackExhausted

  /** The text of the errors the source throws with an explicit message, else the error's class. */
  function Message(f: Failure): string
  {
    match f
    case NoUrlDiscovered(name) => "There is no URL discovered for " + name
    case NoSavingsAccount => "No savings account found"
    case NoPixKeys => "No PIX keys found"
    case PixKeyNotFound => "PIX key not found"
    case CertificatePendingValidation => "Certificate pending validation"
    case CallStackExhausted => "RangeError"
    case _ => "TypeError"
  }
}

=== FILE: graphql.dfy ===
/** `graphQLRequest` (src/index.ts:110-142): request construction and response extraction. */
module GraphQL {
  import opened Wrappers
  import opened Failures
  import opened Json
  import opened Http
  import opened Extractor

  /** The fixed query endpoint (src/index.ts:120). */
  const QueryUrl: string := "https://prod-s4-stormshield.nubank.com.br/api/query"

  /** `INubankQueryObject`: the request body and the dotted response path. */
  datatype Query = Query(data: JValue, path: string)

  /** `IGraphQLResponse`: the reply's headers and the node under `data` or `error`. */
  datatype GqlResponse = GqlResponse(headers: Headers, payload: Payload)

  /** The POST `graphQLRequest` issues and what it resolves or rejects with. */
  datatype GqlCall = GqlCall(request: PostRequest, outcome: Result<GqlResponse, Failure>)

  /** The `Authorization` value `graphQLRequest` computes: the override when truthy, else the session bearer. */
  function OverrideAuthorization(bearer: string, bearerToken: Option<JValue>): string
  {
    if bearerToken.Some? && Truthy(bearerToken.value) then "Bearer " + ToJsString(bearerToken.value)
    else bearer
  }

  /**
   * `graphQLRequest(query, bearerToken)` with `getBearerToken()` resolving to
   * `bearer`, `JSON.stringify` given as `stringify` and the service's answer as
   * `reply`. The computed authorization travels inside the body; the header is
   * the one `NubankPostRequest` sets.
   */
  function GraphQLRequest(bearer: string, query: Query, bearerToken: Option<JValue>,
                          stringify: JValue -> string, reply: Reply): (r: GqlCall)
    ensures r.request.url == QueryUrl
    ensures "Authorization" in r.request.headers && r.request.headers["Authorization"] == bearer
    ensures r.request.body.JObj? && r.request.body.fields.Keys == {"headers", "body"}
    ensures r.request.body.fields["body"] == JStr(stringify(query.data))
    ensures r.request.body.fields["headers"] == HeadersJson(RequestHeaders(OverrideAuthorization(bearer, bearerToken)))
    ensures reply.NetworkFailure? ==> r.outcome == Err(FetchFailed(QueryUrl))
    ensures reply.Delivered? && reply.json.None? ==> r.outcome == Err(InvalidJson(QueryUrl))
    ensures reply.Delivered? && reply.json.Some? ==>
              var node := Extract(reply.json.value, query.path);
              (r.outcome.Ok? <==> node.Some? && !node.value.JNull?)
              && (r.outcome.Err? ==> r.outcome.error == MalformedResponse)
              && (r.outcome.Ok? ==>
                    && r.outcome.value.headers == reply.headers
                    && r.outcome.value.payload.node == node.value
                    && (r.outcome.value.payload.AppError? <==> IsRequestError(node.value)))
  {
    var authorization := OverrideAuthorization(bearer, bearerToken);
    var body := JObj(map["headers" := HeadersJson(RequestHeaders(authorization)),
                         "body" := JStr(stringify(query.data))]);
    var request := NubankPost(bearer, QueryUrl, body);
    match ReadJson(reply, QueryUrl)
    case Err(e) => GqlCall(request, Err(e))
    case Ok(envelope) =>
      match Extract(envelope, query.path)
      case None => GqlCall(request, Err(MalformedResponse))
      case Some(node) =>
        match Classify(node)
        case None => GqlCall(request, Err(MalformedResponse))
        case Some(payload) => GqlCall(request, Ok(GqlResponse(reply.headers, payload)))
  }

  /**
   * A string override never reaches the real `Authorization` header: it is
   * sent inside the JSON body, while the header keeps the session bearer.
   */
  lemma OverrideStaysInBody(bearer: string, query: Query, token: string,
                            stringify: JValue -> string, reply: Reply)
    requires token != ""
    ensures var r := GraphQLRequest(bearer, query, Some(JStr(token)), stringify, reply);
            && r.request.headers["Authorization"] == bearer
            && r.request.body.fields["headers"].fields["Authorization"] == JStr("Bearer " + token)
  {
    var r := GraphQLRequest(bearer, query, Some(JStr(token)), stringify, reply);
    assert OverrideAuthorization(bearer, Some(JStr(token))) == "Bearer " + token;
    assert r.request.body.fields["headers"] == HeadersJson(RequestHeaders("Bearer " + token));
  }

  /** With no truthy override the body repeats the session bearer. */
  lemma NoOverrideRepeatsBearer(bearer: string, query: Query, bearerToken: Option<JValue>,
                                stringify: JValue -> string, reply: Reply)
    requires bearerToken.None? || !Truthy(bearerToken.value)
    ensures var r := GraphQLRequest(bearer, query, bearerToken, stringify, reply);
            r.request.body.fields["headers"].fields["Authorization"] == JStr(bearer)
  {
  }

  /** The `data || error` a caller reads off a response (src/index.ts:278); `None` is `undefined`. */
  function DataOrError(p: Payload): (r: Option<JValue>)
    ensures p.AppError? ==> r == Some(p.node)
    ensures p.Data? ==> (r.Some? <==> Truthy(p.node))
    ensures r.Some? ==> r.value == p.node
  {
    match p
    case Data(node) => if Truthy(node) then Some(node) else None
    case AppError(node) => Some(node)
  }
}

=== FILE: http.dfy ===
/**
 * Request construction of `NubankPostRequest` (src/index.ts:144-156) and the
 * record of every network interaction the client performs.
 */
module Http {
  import opened Wrappers
  import opened Failures
  import opened Json

  type Headers = map<string, string>

  /** `BASE_HEADERS` (src/index.ts:31-35). */
  const BaseHeaders: Headers :=
    map["Content-Type" := "application/json", "X-Correlation-Id" := "and-7-0-0", "User-Agent" := "nubank.ts"]

  /** A POST as `fetch` receives it; `body` is the value handed to `JSON.stringify`. */
  datatype PostRequest = PostRequest(url: string, headers: Headers, body: JValue)

  /**
   * One network interaction, in the order the client starts them. Every
   * interaction but `Get` is a `NubankPostRequest` POST; `Post` records the
   * ones whose request the model builds (the proof POST and the transfer
   * retry), the others are recorded by what they are for.
   */
  datatype Call =
    | Get(url: string)                            // a discovery fetch
    | Post(request: PostRequest)                  // the proof POST or the transfer retry, with its request
    | TokenExchange(url: string, body: JValue)    // the password grant of getBearerToken
    | ProfileLoad                                 // loadMe's setup query
    | TransferInit(account: string, amount: int)  // transferOutInit's query

  /** What `fetch` and `response.json()` produced: `json` is `None` when the body is not JSON. */
  datatype Reply = Delivered(headers: Headers, json: Option<JValue>) | NetworkFailure

  /** The headers every `NubankPostRequest` sends, with `authorization` as the bearer. */
  function RequestHeaders(authorization: string): (h: Headers)
    ensures h.Keys == BaseHeaders.Keys + {"accept", "Authorization"}
    ensures forall k :: k in BaseHeaders ==> h[k] == BaseHeaders[k]
    ensures h["accept"] == "application/json" && h["Authorization"] == authorization
  {
    BaseHeaders["accept" := "application/json"]["Authorization" := authorization]
  }

  /**
   * `NubankPostRequest(url, body)` once `getBearerToken()` has resolved to
   * `bearer`: the header always carries `bearer`, the body is `body` whole.
   */
  function NubankPost(bearer: string, url: string, body: JValue): (r: PostRequest)
    ensures r.url == url && r.body == body
    ensures r.headers == RequestHeaders(bearer)
  {
    PostRequest(url, RequestHeaders(bearer), body)
  }

  /** A header map as the JSON object literal `{ ...headers }`. */
  function HeadersJson(h: Headers): (j: JValue)
    ensures j.JObj? && j.fields.Keys == h.Keys
    ensures forall k :: k in h ==> j.fields[k] == JStr(h[k])
  {
    JObj(map k | k in h :: JStr(h[k]))
  }

  /** The parsed body of a reply from `url`, or what `fetch` / `json()` threw. */
  function ReadJson(reply: Reply, url: string): (r: Result<JValue, Failure>)
    ensures reply.NetworkFailure? ==> r == Err(FetchFailed(url))
    ensures reply.Delivered? && reply.json.None? ==> r == Err(InvalidJson(url))
    ensures reply.Delivered? && reply.json.Some? ==> r == Ok(reply.json.value)
  {
    match reply
    case NetworkFailure => Err(FetchFailed(url))
    case Delivered(_, json) => if json.Some? then Ok(json.value) else Err(InvalidJson(url))
  }
}

=== FILE: json.dfy ===
/** Parsed JSON values and the few JavaScript operations the client applies to them. */
module Json {
  import opened Wrappers
  import opened Failures

  /** A JSON value; numbers are modelled as integers (the client does no arithmetic on them). */
  datatype JValue =
    | JNull
    | JBool(b: bool)
    | JNum(n: int)
    | JStr(s: string)
    | JArr(items: seq<JValue>)
    | JObj(fields: map<string, JValue>)

  /** JavaScript truthiness of a JSON value. */
  predicate Truthy(v: JValue)
  {
    match v
    case JNull => false
    case JBool(b) => b
    case JNum(n) => n != 0
    case JStr(s) => s != ""
    case _ => true
  }

  /** JavaScript truthiness of a string that may be `undefined`. */
  predicate Present(s: Option<string>)
  {
    s.Some? && s.value != ""
  }

  /**
   * The JavaScript property read `v[key]`: `null` throws, an object yields the
   * field or `undefined` (`None`), any other value yields `undefined`.
   */
  function Property(v: JValue, key: string): (r: Result<Option<JValue>, Failure>)
    ensures r.Err? <==> v.JNull?
    ensures r.Ok? && r.value.Some? <==> v.JObj? && key in v.fields
    ensures r.Ok? && r.value.Some? ==> r.value.value == v.fields[key]
  {
    match v
    case JNull => Err(NullProperty(key))
    case JObj(m) => if key in m then Ok(Some(m[key])) else Ok(None)
    case _ => Ok(None)
  }

  /** The number a string of decimal digits denotes, most significant digit first. */
  function DecimalValue(s: string): nat
    requires forall i :: 0 <= i < |s| ==> '0' <= s[i] <= '9'
    decreases |s|
  {
    if s == [] then 0 else 10 * DecimalValue(s[..|s| - 1]) + (s[|s| - 1] as int - '0' as int)
  }

  /** The decimal digits of a natural number, as `String(n)` renders it: no leading zero. */
  function NatToDecimal(n: nat): (r: string)
    ensures |r| >= 1
    ensures forall i :: 0 <= i < |r| ==> '0' <= r[i] <= '9'
    ensures DecimalValue(r) == n
    ensures |r| > 1 ==> r[0] != '0'
    decreases n
  {
    var d := [(('0' as int) + n % 10) as char];
    if n < 10 then d
    else
      var prefix := NatToDecimal(n / 10);
      assert (prefix + d)[..|prefix + d| - 1] == prefix;
      prefix + d
  }

  /** `String(v)`, as a template literal `${v}` renders a JSON value. */
  function ToJsString(v: JValue): string
  {
    match v
    case JNull => "null"
    case JBool(b) => if b then "true" else "false"
    case JNum(n) => if n < 0 then "-" + NatToDecimal(-n) else NatToDecimal(n)
    case JStr(s) => s
    case JArr(items) => JoinItems(items)
    case JObj(_) => "[object Object]"
  }

  /** `Array.prototype.join(",")`: `null` items render as the empty string. */
  function JoinItems(items: seq<JValue>): string
    decreases items
  {
    if items == [] then ""
    else
      var head := if items[0].JNull? then "" else ToJsString(items[0]);
      if |items| == 1 then head else head + "," + JoinItems(items[1..])
  }
}

=== FILE: paths.dfy ===
/** `String.prototype.split` on one separator character, and its inverse. */
module Paths {

  /** Concatenates `parts` with `sep` between neighbours (`Array.prototype.join`). */
  function Join(parts: seq<string>, sep: char): string
  {
    if parts == [] then []
    else if |parts| == 1 then parts[0]
    else parts[0] + [sep] + Join(parts[1..], sep)
  }

  /**
   * `s.split(sep)`: the maximal separator-free pieces of `s`, in order, empty
   * pieces included, so `""` splits into `[""]` and `"a..b"` into `["a", "", "b"]`.
   */
  function Split(s: string, sep: char): (parts: seq<string>)
    ensures |parts| >= 1
    ensures forall i :: 0 <= i < |parts| ==> sep !in parts[i]
    ensures Join(parts, sep) == s
    decreases |s|
  {
    if s == [] then [[]]
    else
      var rest := Split(s[1..], sep);
      if s[0] == sep then
        assert s == [sep] + s[1..];
        [[]] + rest
      else
        var parts := [[s[0]] + rest[0]] + rest[1..];
        assert parts[1..] == rest[1..];
        assert s == [s[0]] + s[1..];
        parts
  }

  /** A piece free of separators splits into itself. */
  lemma {:induction false} SplitSeparatorFree(a: string, sep: char)
    requires sep !in a
    ensures Split(a, sep) == [a]
    decreases |a|
  {
    if a != [] {
      SplitSeparatorFree(a[1..], sep);
      assert [a[0]] + a[1..] == a;
    }
  }

  /** Splitting `a + sep + t` yields `a` followed by the pieces of `t`. */
  lemma {:induction false} SplitAfterPiece(a: string, sep: char, t: string)
    requires sep !in a
    ensures Split(a + [sep] + t, sep) == [a] + Split(t, sep)
    decreases |a|
  {
    var s := a + [sep] + t;
    if a == [] {
      assert s[1..] == t;
    } else {
      assert s[1..] == a[1..] + [sep] + t;
      SplitAfterPiece(a[1..], sep, t);
      assert [a[0]] + a[1..] == a;
    }
  }

  /** Split undoes Join on separator-free pieces: the two are inverse. */
  lemma {:induction false} SplitJoin(parts: seq<string>, sep: char)
    requires |parts| >= 1
    requires forall i :: 0 <= i < |parts| ==> sep !in parts[i]
    ensures Split(Join(parts, sep), sep) == parts
    decreases |parts|
  {
    if |parts| == 1 {
      SplitSeparatorFree(parts[0], sep);
    } else {
      SplitJoin(parts[1..], sep);
      SplitAfterPiece(parts[0], sep, Join(parts[1..], sep));
      assert [parts[0]] + parts[1..] == parts;
    }
  }

  /** Reverses a sequence (`Array.prototype.reverse`). */
  function Reverse<T>(s: seq<T>): (r: seq<T>)
    ensures |r| == |s|
    ensures forall i :: 0 <= i < |s| ==> r[i] == s[|s| - 1 - i]
  {
    if s == [] then [] else Reverse(s[1..]) + [s[0]]
  }
}

=== FILE: pix.dfy ===
/** PIX key selection of `generatePixQr` (src/index.ts:178-208). */
module Pix {
  import opened Wrappers
  import opened Failures
  import opened Json
  import opened Http
  import opened Session

  /** The arguments `generatePixQr` hands to its query builder. */
  datatype PixQrArgs = PixQrArgs(amount: int, transactionId: string, message: string,
                                 pixKey: string, savingsAccountId: string)

  /** `keys.findIndex(key => key.value === alias)`: the first matching index, or -1. */
  function FindIndex(keys: seq<PixKey>, alias: string): (i: int)
    ensures -1 <= i < |keys|
    ensures i == -1 <==> forall j :: 0 <= j < |keys| ==> keys[j].value != alias
    ensures i >= 0 ==> keys[i].value == alias && forall j :: 0 <= j < i ==> keys[j].value != alias
    decreases |keys|
  {
    if keys == [] then -1
    else if keys[0].value == alias then 0
    else
      var i := FindIndex(keys[1..], alias);
      if i < 0 then -1 else i + 1
  }

  /** True when some key of `keys` has the value `alias`. */
  predicate Registered(keys: seq<PixKey>, alias: string)
  {
    exists j :: 0 <= j < |keys| && keys[j].value == alias
  }

  /**
   * The validation of src/index.ts:186-197, in source order. As written, the
   * alias check `!findIndex(...)` rejects exactly an alias equal to the FIRST
   * key (index 0) and lets every other alias through, registered or not.
   */
  function SelectPixKey(owner: AccountOwner, pixAlias: Option<string>): (r: Result<string, Failure>)
    ensures owner.savingsAccount.id == "" ==> r == Err(NoSavingsAccount)
    ensures owner.savingsAccount.id != "" && owner.savingsAccount.keys == [] ==> r == Err(NoPixKeys)
    ensures owner.savingsAccount.id != "" && owner.savingsAccount.keys != [] ==>
              && (!Present(pixAlias) ==> r == Ok(owner.savingsAccount.keys[0].value))
              && (Present(pixAlias) ==>
                    (r == Err(PixKeyNotFound) <==> owner.savingsAccount.keys[0].value == pixAlias.value))
              && (Present(pixAlias) && owner.savingsAccount.keys[0].value != pixAlias.value ==> r == Ok(pixAlias.value))
    ensures r.Err? ==> Message(r.error) in {"No savings account found", "No PIX keys found", "PIX key not found"}
  {
    var account := owner.savingsAccount;
    if account.id == "" then Err(NoSavingsAccount)
    else if |account.keys| == 0 then Err(NoPixKeys)
    else if Present(pixAlias) && FindIndex(account.keys, pixAlias.value) == 0 then Err(PixKeyNotFound)
    else if Present(pixAlias) then Ok(pixAlias.value)
    else Ok(account.keys[0].value)
  }

  /** An alias that no key carries is accepted and used as the PIX key. */
  lemma UnregisteredAliasAccepted(owner: AccountOwner, alias: string)
    requires owner.savingsAccount.id != "" && owner.savingsAccount.keys != []
    requires alias != "" && !Registered(owner.savingsAccount.keys, alias)
    ensures SelectPixKey(owner, Some(alias)) == Ok(alias)
  {
  }

  /** The first registered key cannot be chosen explicitly. */
  lemma FirstKeyAliasRejected(owner: AccountOwner)
    requires owner.savingsAccount.id != "" && owner.savingsAccount.keys != []
    requires owner.savingsAccount.keys[0].value != ""
    ensures SelectPixKey(owner, Some(owner.savingsAccount.keys[0].value)) == Err(PixKeyNotFound)
  {
  }

  /**
   * `generatePixQr(amount, transactionId, message, pixAlias)` up to its query:
   * loads the owner when missing (`profile` is the setup query's outcome), then
   * validates and yields the builder's arguments.
   */
  function GeneratePixQr(s: Session, amount: int, transactionId: string, message: string,
                         pixAlias: Option<string>, profile: Result<Option<AccountOwner>, Failure>)
    : (r: Step<PixQrArgs>)
    requires s.me.Some? || HasToken(s)
    ensures r.session == s.(me := r.session.me)
    ensures s.me.Some? ==> r.calls == [] && r.session == s
    ensures s.me.None? ==> r.calls == [ProfileLoad]
    ensures r.outcome.Ok? ==>
              && r.session.me.Some?
              && SelectPixKey(r.session.me.value, pixAlias) == Ok(r.outcome.value.pixKey)
              && r.outcome.value == PixQrArgs(amount, transactionId, message, r.outcome.value.pixKey,
                                              r.session.me.value.savingsAccount.id)
              && r.outcome.value.savingsAccountId != ""
    ensures s.me.None? && profile.Err? ==> r.outcome == Err(profile.error) && r.session == s && r.calls == [ProfileLoad]
    ensures (s.me.Some? || profile.Ok?) ==>
              && r.session.me == (if s.me.Some? then s.me else profile.value)
              && (r.session.me.None? ==> r.outcome == Err(ProfileMissing))
              && (r.session.me.Some? && r.outcome.Err? ==>
                    SelectPixKey(r.session.me.value, pixAlias) == Err(r.outcome.error))
  {
    var loaded := EnsureProfile(s, profile);
    if loaded.outcome.Err? then Step(loaded.session, loaded.calls, Err(loaded.outcome.error))
    else
      var s1 := loaded.session;
      match s1.me
      case None => Step(s1, loaded.calls, Err(ProfileMissing))
      case Some(owner) =>
        match SelectPixKey(owner, pixAlias)
        case Err(e) => Step(s1, loaded.calls, Err(e))
        case Ok(pixKey) =>
          Step(s1, loaded.calls, Ok(PixQrArgs(amount, transactionId, message, pixKey, owner.savingsAccount.id)))
  }
}

=== FILE: session.dfy ===
/**
 * The session state of a `NubankTS` client (src/index.ts:67-108): the cached
 * bearer token, the discovery registry and the cached account owner.
 */
module Session {
  import opened Wrappers
  import opened Failures
  import opened Json
  import opened Http
  import opened Discovery

  /** `IAccountOwner` (src/index.ts:45-59). */
  datatype PixKey = PixKey(id: string, value: string)
  datatype SavingsAccount = SavingsAccount(id: string, keys: seq<PixKey>)
  datatype AccountOwner = AccountOwner(name: string, id: string, savingsAccount: SavingsAccount)

  /** The client's mutable fields; `None` is a field that is still `undefined`. */
  datatype Session = Session(
    user: string,
    password: string,
    token: Option<string>,
    discovery: Registry,
    me: Option<AccountOwner>)

  /** The client's state after an operation, the calls it made, and what it resolved or threw. */
  datatype Step<T> = Step(session: Session, calls: seq<Call>, outcome: Result<T, Failure>)

  /** A truthy `this.token`. */
  predicate HasToken(s: Session)
  {
    Present(s.token)
  }

  /** The password-grant body of the token exchange (src/index.ts:97-103). */
  function ExchangeBody(user: string, password: string): JValue
  {
    JObj(map["grant_type" := JStr("password"),
             "client_id" := JStr("legacy_client_id"),
             "client_secret" := JStr("legacy_client_secret"),
             "login" := JStr(user),
             "password" := JStr(password)])
  }

  /** How a template literal renders the `access_token` the exchange produced; `None` is `undefined`. */
  function AccessTokenText(accessToken: Option<string>): string
  {
    if accessToken.Some? then accessToken.value else "undefined"
  }

  /** The refresh `getBearerToken` starts before its exchange: only while the app list is unloaded. */
  function TokenRefresh(d: Registry, general: ListReply, app: ListReply): Refresh
  {
    if d.proxyListAppUrl.None? then UpdateProxyUrls(d, general, app) else Refresh(d, [], Ok(()))
  }

  /**
   * `getBearerToken()` as it would run if its exchange returned the token
   * response. A cached token is returned with no call at all. Otherwise
   * the registry is refreshed when its app list is unloaded (`general`, `app`
   * are the two discovery fetches), the `token` URL is looked up, the password
   * grant is exchanged (`exchange` is the `access_token` it yields, or what it
   * threw) and `"Bearer " + access_token` is cached and returned.
   */
  function GetBearerToken(s: Session, general: ListReply, app: ListReply,
                          exchange: Result<Option<string>, Failure>): (r: Step<string>)
    ensures HasToken(s) ==> r == Step(s, [], Ok(s.token.value))
    ensures r.session.user == s.user && r.session.password == s.password && r.session.me == s.me
    ensures r.outcome.Ok? ==> r.session.token == Some(r.outcome.value) && HasToken(r.session)
    ensures r.outcome.Err? ==> r.session.token == s.token
    ensures !HasToken(s) ==> (Get(DiscoveryUrl) in r.calls <==> s.discovery.proxyListAppUrl.None?)
    ensures !HasToken(s) ==>
              r.session.discovery == (if s.discovery.proxyListAppUrl.None? then UpdateProxyUrls(s.discovery, general, app).registry
                                      else s.discovery)
    ensures !HasToken(s) && r.outcome.Ok? ==>
              && exchange.Ok?
              && r.outcome.value == "Bearer " + AccessTokenText(exchange.value)
              && GetAppUrl(r.session.discovery, "token").Ok?
              && r.calls == (if s.discovery.proxyListAppUrl.None? then UpdateProxyUrls(s.discovery, general, app).calls
                             else [])
                            + [TokenExchange(GetAppUrl(r.session.discovery, "token").value, ExchangeBody(s.user, s.password))]
  {
    if HasToken(s) then Step(s, [], Ok(s.token.value))
    else
      var refresh := TokenRefresh(s.discovery, general, app);
      var s1 := s.(discovery := refresh.registry);
      if refresh.outcome.Err? then Step(s1, refresh.calls, Err(refresh.outcome.error))
      else
        match GetAppUrl(s1.discovery, "token")
        case Err(e) => Step(s1, refresh.calls, Err(e))
        case Ok(url) =>
          var calls := refresh.calls + [TokenExchange(url, ExchangeBody(s.user, s.password))];
          match exchange
          case Err(e) => Step(s1, calls, Err(e))
          case Ok(accessToken) =>
            var token := "Bearer " + AccessTokenText(accessToken);
            Step(s1.(token := Some(token)), calls, Ok(token))
  }

  /**
   * `getBearerToken()` as written. Without a cached token it refreshes the
   * registry when needed and looks up the `token` URL; `NubankPostRequest`
   * then awaits `getBearerToken()` for its header before its `fetch`
   * (src/index.ts:95, 150). The token is still unset and the app list is now
   * loaded, so the inner call repeats the same steps synchronously, without
   * end, until the call stack overflows. The exchange is never sent.
   */
  function GetBearerTokenAsWritten(s: Session, general: ListReply, app: ListReply): (r: Step<string>)
    ensures HasToken(s) ==> r == Step(s, [], Ok(s.token.value))
    ensures !HasToken(s) ==> r.outcome.Err? && r.session == s.(discovery := r.session.discovery)
    ensures !HasToken(s) ==> forall i :: 0 <= i < |r.calls| ==> !r.calls[i].TokenExchange?
    ensures !HasToken(s) ==>
              var refresh := TokenRefresh(s.discovery, general, app);
              && r.session.discovery == refresh.registry
              && r.calls == refresh.calls
              && (refresh.outcome.Ok? && GetAppUrl(refresh.registry, "token").Ok? ==> r.outcome == Err(CallStackExhausted))
  {
    if HasToken(s) then Step(s, [], Ok(s.token.value))
    else
      var refresh := TokenRefresh(s.discovery, general, app);
      var s1 := s.(discovery := refresh.registry);
      if refresh.outcome.Err? then Step(s1, refresh.calls, Err(refresh.outcome.error))
      else
        match GetAppUrl(s1.discovery, "token")
        case Err(e) => Step(s1, refresh.calls, Err(e))
        case Ok(_) => Step(s1, refresh.calls, Err(CallStackExhausted))
  }

  /**
   * The modelled acquisition is the one as written with the exchange appended:
   * the same refresh and lookup, and where the code overflows instead, the
   * model sends the exchange and takes its result as input.
   */
  lemma AsWrittenAcquisitionStopsBeforeExchange(s: Session, general: ListReply, app: ListReply,
                                               exchange: Result<Option<string>, Failure>)
    requires !HasToken(s)
    ensures var w := GetBearerTokenAsWritten(s, general, app);
            var m := GetBearerToken(s, general, app, exchange);
            && m.session.discovery == w.session.discovery
            && (w.outcome != Err(CallStackExhausted) ==> m == w)
            && (w.outcome == Err(CallStackExhausted) ==>
                  m.calls == w.calls + [TokenExchange(GetAppUrl(w.session.discovery, "token").value,
                                                      ExchangeBody(s.user, s.password))])
  {
  }

  /** Once a token was acquired, every later call returns it from the cache, whatever the network would answer. */
  lemma TokenCachedAfterAcquisition(s: Session, general: ListReply, app: ListReply,
                                    exchange: Result<Option<string>, Failure>,
                                    general': ListReply, app': ListReply,
                                    exchange': Result<Option<string>, Failure>)
    requires GetBearerToken(s, general, app, exchange).outcome.Ok?
    ensures var r := GetBearerToken(s, general, app, exchange);
            GetBearerToken(r.session, general', app', exchange') == Step(r.session, [], r.outcome)
  {
  }

  /** A client whose registry already holds both lists acquires its token with the exchange as its only call. */
  lemma AcquisitionWithLoadedRegistry(s: Session, general: ListReply, app: ListReply, accessToken: string)
    requires !HasToken(s)
    requires s.discovery.proxyListAppUrl.Some? && Discovered(s.discovery.proxyListAppUrl.value, "token")
    ensures GetBearerToken(s, general, app, Ok(Some(accessToken)))
            == Step(s.(token := Some("Bearer " + accessToken)),
                    [TokenExchange(s.discovery.proxyListAppUrl.value["token"], ExchangeBody(s.user, s.password))],
                    Ok("Bearer " + accessToken))
  {
  }

  /**
   * `if (!this.me) await this.loadMe()` (src/index.ts:86-89, 184, 258): a
   * cached owner is kept; otherwise the setup query runs and `me` becomes its
   * `data`, `None` when the query answered with an error node. `profile` is
   * that query's outcome; it runs with the cached token, since this function
   * does not compose the query's own token acquisition (`GetBearerTokenAsWritten`).
   */
  function EnsureProfile(s: Session, profile: Result<Option<AccountOwner>, Failure>): (r: Step<()>)
    requires s.me.Some? || HasToken(s)
    ensures s.me.Some? ==> r == Step(s, [], Ok(()))
    ensures s.me.None? ==> r.calls == [ProfileLoad] && (r.outcome.Ok? <==> profile.Ok?)
    ensures s.me.None? && profile.Ok? ==> r.session == s.(me := profile.value)
    ensures s.me.None? && profile.Err? ==> r.session == s && r.outcome.error == profile.error
  {
    if s.me.Some? then Step(s, [], Ok(()))
    else
      match profile
      case Err(e) => Step(s, [ProfileLoad], Err(e))
      case Ok(owner) => Step(s.(me := owner), [ProfileLoad], Ok(()))
  }

  /** A loaded owner is kept: a second `loadMe` guard makes no call, whatever the setup query would answer. */
  lemma ProfileLoadedOnce(s: Session, profile: Result<Option<AccountOwner>, Failure>,
                          profile': Result<Option<AccountOwner>, Failure>)
    requires s.me.Some? || HasToken(s)
    requires EnsureProfile(s, profile).session.me.Some?
    ensures var r := EnsureProfile(s, profile);
            EnsureProfile(r.session, profile') == Step(r.session, [], Ok(()))
  {
  }
}

=== FILE: transfer.dfy ===
/**
 * The step-up transfer flow of `transferOutInit` / `transferOutPix`
 * (src/index.ts:247-279) as a state machine whose network answers are inputs.
 */
module Transfer {
  import opened Wrappers
  import opened Failures
  import opened Json
  import opened Http
  import opened Extractor
  import opened GraphQL
  import opened Session

  /** `ITransferAuthProof` (src/index.ts:61-65): every field may be missing. */
  datatype AuthProof = AuthProof(
    certificatePendingValidationUrl: Option<string>,
    verifyPinProof: Option<string>,
    location: Option<string>)

  /**
   * How `transferOutInit` settled: its query resolved (so it returns
   * `undefined`), or threw an error whose `www-authenticate` header parsed into
   * `challenge`, or threw an error without a `response` (its catch block throws).
   */
  datatype InitOutcome = InitResolved | InitRejected(challenge: AuthProof) | InitRejectedWithoutResponse

  /**
   * The outcome `transferOutInit` has as written (src/index.ts:247-255) when its
   * query is answered by `reply`. A resolved query makes it return `undefined`;
   * every rejection of `graphQLRequest` is a fetch, JSON or walk failure that
   * carries no `response`, so the catch block's `error.response.headers` read
   * throws in turn. No challenge is ever parsed.
   */
  function InitAsWritten(bearer: string, init: Query, stringify: JValue -> string, reply: Reply): (r: InitOutcome)
    ensures !r.InitRejected?
    ensures r.InitResolved? <==> GraphQLRequest(bearer, init, None, stringify, reply).outcome.Ok?
    ensures reply.NetworkFailure? ==> r == InitRejectedWithoutResponse
  {
    if GraphQLRequest(bearer, init, None, stringify, reply).outcome.Ok? then InitResolved
    else InitRejectedWithoutResponse
  }

  /** The flow's states; `Completed` holds `data || error`, `None` being `undefined`. */
  datatype FlowState =
    | Init
    | Challenged(proof: AuthProof)
    | ProofPosted(response: JValue)
    | Elevated(bearerToken: Option<JValue>)
    | Completed(result: Option<JValue>)
    | Failed(failure: Failure)

  /** The arguments of `transferOutPix`, plus the `transferOut(account, value)` query it retries with. */
  datatype TransferRequest = TransferRequest(account: string, value: int, cardPassword: string, retry: Query)

  /** The network's answers, each consulted at most once. */
  datatype Answers = Answers(
    profile: Result<Option<AccountOwner>, Failure>,
    init: InitOutcome,
    proofReply: Reply,
    retryReply: Reply)

  datatype Config = Config(session: Session, state: FlowState, calls: seq<Call>)

  /**
   * `bearer` is what every `getBearerToken()` of the flow returns: the session's
   * cached token (src/index.ts:92, 107).
   */
  predicate Bears(s: Session, bearer: string)
  {
    HasToken(s) && bearer == s.token.value
  }

  predicate Terminal(st: FlowState)
  {
    st.Completed? || st.Failed?
  }

  /** Steps left before a terminal state. */
  function Rank(st: FlowState): nat
  {
    match st
    case Init => 4
    case Challenged(_) => 3
    case ProofPosted(_) => 2
    case Elevated(_) => 1
    case _ => 0
  }

  /** Calls a state may still make before the flow ends. */
  function CallBudget(st: FlowState): nat
  {
    match st
    case Init => 4
    case Challenged(_) => 2
    case ProofPosted(_) => 1
    case Elevated(_) => 1
    case _ => 0
  }

  /** True when the challenge carries both a pin proof and a location (src/index.ts:261). */
  predicate Actionable(p: AuthProof)
  {
    Present(p.verifyPinProof) && Present(p.location)
  }

  /** The body of the proof POST (src/index.ts:264-268). */
  function ProofBody(cardPassword: string, verifyPinProof: string): JValue
  {
    JObj(map["acl" := JArr([]), "input" := JStr(cardPassword), "proof" := JStr(verifyPinProof)])
  }

  /** The proof POST for an actionable challenge, sent with the session bearer. */
  function ProofRequest(bearer: string, t: TransferRequest, p: AuthProof): PostRequest
    requires Actionable(p)
  {
    NubankPost(bearer, p.location.value, ProofBody(t.cardPassword, p.verifyPinProof.value))
  }

  /**
   * Init: load the owner when missing (src/index.ts:258), then run
   * `transferOutInit` (src/index.ts:247-255, 259); only its catch branch yields a challenge.
   */
  function StepInit(c: Config, t: TransferRequest, a: Answers): (r: Config)
    requires c.state.Init? && HasToken(c.session)
    ensures r.session.token == c.session.token && r.session.discovery == c.session.discovery
  {
    var loaded := EnsureProfile(c.session, a.profile);
    var calls := c.calls + loaded.calls;
    if loaded.outcome.Err? then Config(loaded.session, Failed(loaded.outcome.error), calls)
    else
      var calls' := calls + [TransferInit(t.account, t.value)];
      match a.init
      case InitResolved => Config(loaded.session, Failed(NoChallenge), calls')
      case InitRejectedWithoutResponse => Config(loaded.session, Failed(InitFailedWithoutResponse), calls')
      case InitRejected(p) => Config(loaded.session, Challenged(p), calls')
  }

  /** Challenged: the guard of src/index.ts:261-262, then the proof POST of src/index.ts:264-270. */
  function StepChallenged(c: Config, t: TransferRequest, a: Answers, bearer: string): (r: Config)
    requires c.state.Challenged?
  {
    var p := c.state.proof;
    if !Actionable(p) then c.(state := Failed(CertificatePendingValidation))
    else
      var calls := c.calls + [Post(ProofRequest(bearer, t, p))];
      match ReadJson(a.proofReply, p.location.value)
      case Err(e) => Config(c.session, Failed(e), calls)
      case Ok(json) => Config(c.session, ProofPosted(json), calls)
  }

  /** ProofPosted: `responseData.access_token` (src/index.ts:271). */
  function StepProofPosted(c: Config): (r: Config)
    requires c.state.ProofPosted?
  {
    match Property(c.state.response, "access_token")
    case Err(e) => c.(state := Failed(e))
    case Ok(token) => c.(state := Elevated(token))
  }

  /** Elevated: the single `rawTransferOut` retry and its `data || error` (src/index.ts:272-278). */
  function StepElevated(c: Config, t: TransferRequest, a: Answers, bearer: string,
                        stringify: JValue -> string): (r: Config)
    requires c.state.Elevated?
  {
    var call := GraphQLRequest(bearer, t.retry, c.state.bearerToken, stringify, a.retryReply);
    var calls := c.calls + [Post(call.request)];
    match call.outcome
    case Err(e) => Config(c.session, Failed(e), calls)
    case Ok(response) => Config(c.session, Completed(DataOrError(response.payload)), calls)
  }

  /** One transition; `bearer` is the cached token `getBearerToken()` returns during the flow. */
  function Advance(c: Config, t: TransferRequest, a: Answers, bearer: string, stringify: JValue -> string): (r: Config)
    requires !Terminal(c.state) && Bears(c.session, bearer)
    ensures Rank(r.state) < Rank(c.state)
    ensures r.session.token == c.session.token && r.session.discovery == c.session.discovery
    ensures |c.calls| <= |r.calls| && r.calls[..|c.calls|] == c.calls
    ensures |r.calls| - |c.calls| + CallBudget(r.state) <= CallBudget(c.state)
  {
    match c.state
    case Init => StepInit(c, t, a)
    case Challenged(_) => StepChallenged(c, t, a, bearer)
    case ProofPosted(_) => StepProofPosted(c)
    case Elevated(_) => StepElevated(c, t, a, bearer, stringify)
  }

  /** Runs the machine to a terminal state. */
  function Run(c: Config, t: TransferRequest, a: Answers, bearer: string, stringify: JValue -> string): (r: Config)
    requires Bears(c.session, bearer)
    ensures Terminal(r.state)
    ensures r.session.token == c.session.token && r.session.discovery == c.session.discovery
    ensures |r.calls| <= |c.calls| + CallBudget(c.state)
    decreases Rank(c.state)
  {
    if Terminal(c.state) then c else Run(Advance(c, t, a, bearer, stringify), t, a, bearer, stringify)
  }

  /** `transferOutPix(account, value, cardPassword)` from a fresh start. */
  function TransferOutPix(s: Session, t: TransferRequest, a: Answers, bearer: string,
                          stringify: JValue -> string): (r: Config)
    requires Bears(s, bearer)
    ensures Terminal(r.state)
    ensures r.session.token == s.token
    ensures |r.calls| <= 4
  {
    Run(Config(s, Init, []), t, a, bearer, stringify)
  }

  /** The calls before the challenge is examined: the owner load when `me` is missing, then the init query. */
  function InitCalls(s: Session, t: TransferRequest): seq<Call>
  {
    (if s.me.None? then [ProfileLoad] else []) + [TransferInit(t.account, t.value)]
  }

  /**
   * A challenge without a pin proof or a location ends the flow with
   * "Certificate pending validation" before the proof POST.
   */
  lemma PendingCertificateStopsBeforeProof(s: Session, t: TransferRequest, a: Answers, bearer: string,
                                           stringify: JValue -> string)
    requires Bears(s, bearer)
    requires s.me.Some? || a.profile.Ok?
    requires a.init.InitRejected? && !Actionable(a.init.challenge)
    ensures var r := TransferOutPix(s, t, a, bearer, stringify);
            r.state == Failed(CertificatePendingValidation) && r.calls == InitCalls(s, t)
  {
    var c0 := Config(s, Init, []);
    var c1 := Advance(c0, t, a, bearer, stringify);
    assert c1.state == Challenged(a.init.challenge) && c1.calls == InitCalls(s, t);
    var c2 := Advance(c1, t, a, bearer, stringify);
    assert c2 == c1.(state := Failed(CertificatePendingValidation));
    assert Run(c0, t, a, bearer, stringify) == Run(c1, t, a, bearer, stringify);
    assert Run(c1, t, a, bearer, stringify) == c2;
  }

  /**
   * When `transferOutInit` yields no challenge, reading `proof.verifyPinProof`
   * throws before the proof POST.
   */
  lemma MissingChallengeStopsBeforeProof(s: Session, t: TransferRequest, a: Answers, bearer: string,
                                         stringify: JValue -> string)
    requires Bears(s, bearer)
    requires s.me.Some? || a.profile.Ok?
    requires !a.init.InitRejected?
    ensures var r := TransferOutPix(s, t, a, bearer, stringify);
            && r.state == Failed(if a.init.InitResolved? then NoChallenge else InitFailedWithoutResponse)
            && r.calls == InitCalls(s, t)
  {
    var c0 := Config(s, Init, []);
    var c1 := Advance(c0, t, a, bearer, stringify);
    assert c1.calls == InitCalls(s, t);
    assert Run(c0, t, a, bearer, stringify) == c1;
  }

  /**
   * As written, no transfer gets past its init: with the init outcome derived
   * from the query's reply, every run fails after the owner load and the init
   * query, with neither the proof POST nor the retry.
   */
  lemma AsWrittenFlowStopsAtInit(s: Session, t: TransferRequest, a: Answers, bearer: string,
                                stringify: JValue -> string, init: Query, reply: Reply)
    requires Bears(s, bearer)
    requires s.me.Some? || a.profile.Ok?
    requires a.init == InitAsWritten(bearer, init, stringify, reply)
    ensures var r := TransferOutPix(s, t, a, bearer, stringify);
            && r.state.Failed? && r.state.failure in {NoChallenge, InitFailedWithoutResponse}
            && r.calls == InitCalls(s, t)
            && forall i :: 0 <= i < |r.calls| ==> !r.calls[i].Post?
  {
    MissingChallengeStopsBeforeProof(s, t, a, bearer, stringify);
  }

  /**
   * Every run that completes went through exactly one proof POST to the
   * challenge's location and exactly one retry of the transfer, carrying the
   * `access_token` of the proof response, and returns `data || error` of that
   * retry. Nothing is repeated.
   */
  lemma CompletedRunShape(s: Session, t: TransferRequest, a: Answers, bearer: string,
                          stringify: JValue -> string)
    requires Bears(s, bearer)
    requires TransferOutPix(s, t, a, bearer, stringify).state.Completed?
    ensures a.init.InitRejected? && Actionable(a.init.challenge)
    ensures a.proofReply.Delivered? && a.proofReply.json.Some?
    ensures Property(a.proofReply.json.value, "access_token").Ok?
    ensures var r := TransferOutPix(s, t, a, bearer, stringify);
            var retry := GraphQLRequest(bearer, t.retry, Property(a.proofReply.json.value, "access_token").value,
                                        stringify, a.retryReply);
            && retry.outcome.Ok?
            && r.state == Completed(DataOrError(retry.outcome.value.payload))
            && r.calls == InitCalls(s, t) + [Post(ProofRequest(bearer, t, a.init.challenge)), Post(retry.request)]
  {
    var r := TransferOutPix(s, t, a, bearer, stringify);
    var c0 := Config(s, Init, []);
    var c1 := Advance(c0, t, a, bearer, stringify);
    assert r == Run(c1, t, a, bearer, stringify);
    assert c1.state.Challenged? && c1.calls == InitCalls(s, t);
    var c2 := Advance(c1, t, a, bearer, stringify);
    assert r == Run(c2, t, a, bearer, stringify);
    assert c2.state.ProofPosted?;
    var c3 := Advance(c2, t, a, bearer, stringify);
    assert r == Run(c3, t, a, bearer, stringify);
    assert c3.state.Elevated?;
    var c4 := Advance(c3, t, a, bearer, stringify);
    assert r == Run(c4, t, a, bearer, stringify);
  }

  /** The proof token read from the proof response, when the run gets that far. */
  function ProofToken(a: Answers): Option<JValue>
  {
    if a.proofReply.Delivered? && a.proofReply.json.Some? then
      match Property(a.proofReply.json.value, "access_token")
      case Ok(token) => token
      case Err(_) => None
    else None
  }

  /**
   * With an actionable challenge and a proof response that is a JSON object,
   * the run ends with the retry step, after exactly the init calls and one proof POST.
   */
  lemma ActionableRunEndsWithRetry(s: Session, t: TransferRequest, a: Answers, bearer: string,
                                   stringify: JValue -> string)
    requires Bears(s, bearer)
    requires s.me.Some? || a.profile.Ok?
    requires a.init.InitRejected? && Actionable(a.init.challenge)
    requires a.proofReply.Delivered? && a.proofReply.json.Some? && a.proofReply.json.value.JObj?
    ensures TransferOutPix(s, t, a, bearer, stringify)
            == StepElevated(Config(EnsureProfile(s, a.profile).session, Elevated(ProofToken(a)),
                                   InitCalls(s, t) + [Post(ProofRequest(bearer, t, a.init.challenge))]),
                            t, a, bearer, stringify)
  {
    var r := TransferOutPix(s, t, a, bearer, stringify);
    var c0 := Config(s, Init, []);
    var c1 := Advance(c0, t, a, bearer, stringify);
    assert c1 == Config(EnsureProfile(s, a.profile).session, Challenged(a.init.challenge), InitCalls(s, t));
    assert r == Run(c1, t, a, bearer, stringify);
    var c2 := Advance(c1, t, a, bearer, stringify);
    assert c2.state.ProofPosted?;
    assert r == Run(c2, t, a, bearer, stringify);
    var c3 := Advance(c2, t, a, bearer, stringify);
    assert c3 == Config(c1.session, Elevated(ProofToken(a)), InitCalls(s, t) + [Post(ProofRequest(bearer, t, a.init.challenge))]);
    assert r == Run(c3, t, a, bearer, stringify);
    assert r == Run(Advance(c3, t, a, bearer, stringify), t, a, bearer, stringify);
  }

  /**
   * The documented scenario: an actionable challenge and a proof response
   * `{access_token: token}` lead to the proof POST with body
   * `{acl: [], input: cardPassword, proof: verifyPinProof}` and one retry whose
   * body carries `Bearer token`, while its real header keeps the session bearer.
   */
  lemma ElevatedRetryCarriesProofToken(s: Session, t: TransferRequest, a: Answers, bearer: string,
                                       stringify: JValue -> string, headers: Headers, token: string)
    requires Bears(s, bearer)
    requires s.me.Some? || a.profile.Ok?
    requires a.init.InitRejected? && Actionable(a.init.challenge)
    requires token != ""
    requires a.proofReply == Delivered(headers, Some(JObj(map["access_token" := JStr(token)])))
    ensures var r := TransferOutPix(s, t, a, bearer, stringify);
            var p := a.init.challenge;
            var retry := GraphQLRequest(bearer, t.retry, Some(JStr(token)), stringify, a.retryReply);
            && r.calls == InitCalls(s, t) + [Post(ProofRequest(bearer, t, p)), Post(retry.request)]
            && ProofRequest(bearer, t, p).url == p.location.value
            && ProofRequest(bearer, t, p).body == ProofBody(t.cardPassword, p.verifyPinProof.value)
            && retry.request.body.fields["headers"].fields["Authorization"] == JStr("Bearer " + token)
            && retry.request.headers["Authorization"] == bearer
            && r.state == (if retry.outcome.Ok? then Completed(DataOrError(retry.outcome.value.payload))
                           else Failed(retry.outcome.error))
  {
    assert ProofToken(a) == Some(JStr(token));
    ActionableRunEndsWithRetry(s, t, a, bearer, stringify);
    OverrideStaysInBody(bearer, t.retry, token, stringify, a.retryReply);
  }
}

=== FILE: wrappers.dfy ===
/** Failure-carrying wrappers shared by every module of the model. */
module Wrappers {

  /** A value that may be absent; `None` stands for JavaScript's `undefined`. */
  datatype Option<+T> = None | Some(value: T)

  /** The outcome of an operation that can throw: `Err` carries what was thrown. */
  datatype Result<+T, +E> = Ok(value: T) | Err(error: E)
}
